=== FILE: README.md ===
# wyy player core, modelled in Dafny

This project models the logic in three parts of the wyy browser music player.

- **The drag slider** (`WySliderComponent`). A drag coordinate is mapped to a bounded value. A small state machine tracks the drag: an `isDragging` flag and three subscription handles (start, move, end). Stored values are compared with `valueEqual`, so the change callback fires only when the value really changes (NaN excepted: it notifies on every write). The after-change event `wyOnAfterChange` fires once per completed gesture. The model drives the component with a trace of abstract events: `Init`, `Start(pos, track)`, `Move(pos, track)`, `End`, `Write(v)` and `Destroy`.
- **The song service** (`SongService`). `generateSongList` joins songs with the URL response by id and keeps each song whose URL is truthy. `getSongList` normalises a single song into a list and builds the comma-joined id query. `getLyric` reshapes the lyric response.
- **The player-state selectors** (`player.selector.ts`). Five selectors return one field each, and `getCurrentSong` reads `playList[currentIndex]`.

The modules are:

- `Wrappers` holds `Option` and `Result`.
- `SliderValues` holds JavaScript values, `valueEqual`, `findClosestValue` and `formatValue`.
- `SliderDrag` holds the subscriptions, the component state and the event step function.
- `Decimal` builds the id list and reads it back.
- `SongService` and `PlayerSelector` model the other two source files.

JavaScript numbers are modelled as `real`. NaN is a separate value, because `valueEqual` treats it specially: NaN never equals itself.

Two behaviours of the code shape the model.

- **A song with no URL entry.** `find` returns `undefined` for such a song, and reading `.url` from it throws. `GenerateSongList` therefore requires every song to have an entry (`Resolvable`). The only songs it drops are those whose entry has a falsy URL.
- **`formatValue`.** Its validity test is inverted; see "## Findings". The model keeps the code as written and a corrected variant side by side.

## Model

| member | source | states |
|---|---|---|
| `SliderValues.ValueEqual` | src/app/share/wy-ui/wy-slider/wy-slider.component.ts:207-212 | Two values are `valueEqual` exactly when they are the same value and not NaN. NaN has `typeof` "number" but is never `===` to anything. |
| `SliderValues.FindClosestValue` | src/app/share/wy-ui/wy-slider/wy-slider.component.ts:119-128 | The result always lies between wyMin and wyMax, so it is in [wyMin, wyMax] when wyMin ≤ wyMax. For a horizontal slider, a position at or before the track start gives wyMin and one at or after the track end gives wyMax. A vertical slider gives the opposite: wyMax at the start, wyMin at the end. |
| `SliderValues.FindClosestValueMonotone` | src/app/share/wy-ui/wy-slider/wy-slider.component.ts:125-127 | When wyMin ≤ wyMax, moving the drag position further along the track never lowers a horizontal slider's value and never raises a vertical slider's value. |
| `SliderValues.ValueRoundTrip` | src/app/share/wy-ui/wy-slider/wy-slider.component.ts:119-128 | When wyMin < wyMax, take any value in [wyMin, wyMax]. The position `ValueToPosition` gives for it maps back to exactly that value. |
| `SliderValues.PositionRoundTrip` | src/app/share/wy-ui/wy-slider/wy-slider.component.ts:119-128 | When wyMin < wyMax, take any position on the track. `ValueToPosition` applied to the value it selects returns that position, so the mapping is one-to-one on the track. |
| `SliderValues.AssertValueValidAsWritten` | src/app/share/wy-ui/wy-slider/wy-slider.component.ts:203-205 | `isNaN` of the value, parsed with `parseFloat` when its `typeof` is not "number", holds exactly for the values that are not numbers. A number is never judged valid. |
| `SliderValues.FormatValueAsWritten` | src/app/share/wy-ui/wy-slider/wy-slider.component.ts:193-205 | As written, `formatValue` turns every number into wyMin. NaN and undefined come out of the clamp as NaN, and null is clamped as 0. The result is always a number or NaN, and when wyMin ≤ wyMax a number result lies in [wyMin, wyMax]. |
| `SliderValues.FormatValueAsWrittenLosesValue` | src/app/share/wy-ui/wy-slider/wy-slider.component.ts:193-205 | On a 0..100 slider, the as-written `formatValue` turns 50 into 0. |
| `SliderValues.FormatValueAsWrittenDiffers` | src/app/share/wy-ui/wy-slider/wy-slider.component.ts:193-205 | The as-written and the corrected `formatValue` give different results for every number above wyMin up to wyMax, and for NaN and undefined. |
| `SliderValues.FormatValue` | src/app/share/wy-ui/wy-slider/wy-slider.component.ts:193-201 | When wyMin ≤ wyMax, the corrected `formatValue` always returns a value in [wyMin, wyMax]. A number already in range comes back unchanged. A non-number becomes wyMin. |
| `SliderValues.FormatValueIdempotent` | src/app/share/wy-ui/wy-slider/wy-slider.component.ts:193-201 | When wyMin ≤ wyMax, formatting an already formatted value changes nothing. |
| `SliderDrag.AcquireOne` | src/app/share/wy-ui/wy-slider/wy-slider.component.ts:141-143 | One guarded branch of `subscribeDrag`. A held phase is left exactly as it is. An empty phase gets the next fresh subscription. No other phase changes. Live subscriptions stay distinct. |
| `SliderDrag.Subscribe` | src/app/share/wy-ui/wy-slider/wy-slider.component.ts:140-150 | Before the drag streams exist, nothing changes. After that, every requested phase is held when the call returns. A live handle is never replaced, and phases that were not requested stay as they were. |
| `SliderDrag.SubscribeIdempotent` | src/app/share/wy-ui/wy-slider/wy-slider.component.ts:140-150 | Subscribing again to the same phases is a no-op, so each phase holds at most one subscription. |
| `SliderDrag.Unsubscribe` | src/app/share/wy-ui/wy-slider/wy-slider.component.ts:152-165 | Exactly the requested phases become empty. The other phases keep their handles. |
| `SliderDrag.UnsubscribeUndoesSubscribe` | src/app/share/wy-ui/wy-slider/wy-slider.component.ts:140-165 | Releasing the phases that were just requested empties them and leaves every other phase as it was before the request. |
| `SliderDrag.SetValue` | src/app/share/wy-ui/wy-slider/wy-slider.component.ts:179-191 | Afterwards the stored value is always the given value. If the value was already stored and is not NaN, nothing changes and nothing is notified. Otherwise the offset is recomputed from the new value and the change callback is called once with it. Handles, the dragging flag and emissions do not change. |
| `SliderDrag.SetValueChecked` | src/app/share/wy-ui/wy-slider/wy-slider.component.ts:179-183 | The checked branch of `setValue`, as written. When not dragging, nothing changes. When dragging, a number is stored as wyMin, and NaN or undefined as NaN. No notification is made and the offset is not recomputed. |
| `SliderDrag.SetValueCheckedLosesValue` | src/app/share/wy-ui/wy-slider/wy-slider.component.ts:179-183 | During a drag on a 0..100 slider, a checked write of 50 stores 0. |
| `SliderDrag.SetValueCheckedIntended` | src/app/share/wy-ui/wy-slider/wy-slider.component.ts:179-183 | The checked branch with the corrected formatting. When not dragging, nothing changes. When dragging, the stored value lies in [wyMin, wyMax] when wyMin ≤ wyMax. An in-range number is kept and a non-number becomes wyMin. No notification is made and the offset is not recomputed. |
| `SliderDrag.ToggleDragMoving` | src/app/share/wy-ui/wy-slider/wy-slider.component.ts:229-236 | Sets the dragging flag. `true` leaves move and end held once the streams exist. `false` leaves move and end empty. The start handle and the value are untouched. |
| `SliderDrag.OnDragStart` | src/app/share/wy-ui/wy-slider/wy-slider.component.ts:167-170 | Afterwards the component is dragging and the stored value is the start position's value. Move and end are held once the streams exist. Live handles keep their identity. Nothing is emitted. |
| `SliderDrag.OnDragMove` | src/app/share/wy-ui/wy-slider/wy-slider.component.ts:172-177 | When not dragging, nothing changes. When dragging, the value is adopted and the handles are untouched. |
| `SliderDrag.OnDragEnd` | src/app/share/wy-ui/wy-slider/wy-slider.component.ts:214-218 | Emits the current value exactly once. Dragging ends, move and end are released, and start and the value are kept. |
| `SliderDrag.NgOnInit` | src/app/share/wy-ui/wy-slider/wy-slider.component.ts:67-71 | After initialisation the streams exist and only the start phase has been subscribed. |
| `SliderDrag.NgOnDestroy` | src/app/share/wy-ui/wy-slider/wy-slider.component.ts:238-240 | Every handle is empty whatever the drag phase was. Nothing else changes, including the dragging flag. |
| `SliderDrag.Step` | src/app/share/wy-ui/wy-slider/wy-slider.component.ts:92-117 | Every event preserves the component invariant `Inv`. Live subscriptions stay distinct. Move and end are held together, and only during a drag that a held start subscription began. Nothing is held before the streams exist. The offset stays derived from the stored value. |
| `SliderDrag.Run` | src/app/share/wy-ui/wy-slider/wy-slider.component.ts:92-117 | Any trace of events preserves `Inv`. |
| `SliderDrag.InitialisedIsIdle` | src/app/share/wy-ui/wy-slider/wy-slider.component.ts:67-71 | A newly initialised component listens for drag starts and is not dragging. |
| `SliderDrag.StartBeginsDrag` | src/app/share/wy-ui/wy-slider/wy-slider.component.ts:167-170 | A start on an idle component begins a drag with all three phases held. The stored value is `findClosestValue` of the start position, and nothing is emitted. |
| `SliderDrag.GestureContinues` | src/app/share/wy-ui/wy-slider/wy-slider.component.ts:167-177 | During a drag, starts, moves and writes keep all three subscriptions and the dragging flag, and emit nothing. |
| `SliderDrag.GestureEmitsOnce` | src/app/share/wy-ui/wy-slider/wy-slider.component.ts:214-236 | Start, then any starts, moves and writes, then End: this emits exactly one value, the value held when End arrived. The component is idle afterwards with the same start subscription. A later End is not handled. |
| `SliderDrag.DuplicateMoveIgnored` | src/app/share/wy-ui/wy-slider/wy-slider.component.ts:102-110 | A move at the same coordinate as the previous move changes nothing, even if the track was measured differently in between. |
| `SliderDrag.MoveOutsideDragIgnored` | src/app/share/wy-ui/wy-slider/wy-slider.component.ts:172-177 | In any reachable state, a move that arrives while not dragging changes nothing. |
| `SliderDrag.DestroyedIsInert` | src/app/share/wy-ui/wy-slider/wy-slider.component.ts:238-240 | After destruction, whatever the drag phase was, no later start, move, end or destroy changes anything. |
| `SliderDrag.RepeatedWriteNotifiesOnce` | src/app/share/wy-ui/wy-slider/wy-slider.component.ts:256-258 | Writing the same non-NaN value twice has the effect of writing it once, and a write notifies at most once. |
| `SliderDrag.RepeatedNaNWriteNotifiesAgain` | src/app/share/wy-ui/wy-slider/wy-slider.component.ts:207-212 | Two writes of NaN notify twice, because NaN is never `valueEqual` to the stored NaN. |
| `SliderDrag.StepKeepsValuesInRange` | src/app/share/wy-ui/wy-slider/wy-slider.component.ts:167-218 | Suppose wyMin ≤ wyMax and the event is not a write. Then the stored value, every notified value and every emitted value that lay in [wyMin, wyMax] still lie there after the event. |
| `SliderDrag.DragTraceStaysInRange` | src/app/share/wy-ui/wy-slider/wy-slider.component.ts:92-128 | When wyMin ≤ wyMax and only drag and lifecycle events drive the slider, it never stores, notifies or emits a value outside [wyMin, wyMax]. |
| `Decimal.ParseIntToString` | src/app/services/song.service.ts:24 | Reading back an integer id's decimal string gives the id. |
| `Decimal.SplitJoin` | src/app/services/song.service.ts:24 | Splitting a `join` on its separator gives back the parts, provided no part contains the separator. |
| `Decimal.IdListRoundTrip` | src/app/services/song.service.ts:24 | The comma-joined id list reads back as exactly the ids it was built from, in order. The empty list gives the empty string. Every part is written as JavaScript writes an integer, with no leading zero and no `-0`. |
| `Decimal.IntToStringParse` | src/app/services/song.service.ts:24 | A numeral with no leading zero, optionally negative but never `-0`, is the decimal string of the integer it denotes. So no two such numerals name the same id. |
| `Decimal.IdListUnique` | src/app/services/song.service.ts:24 | Take a query whose parts are all numerals of that form. If it reads back as some ids, it is exactly the comma-joined list of those ids. The query is therefore the only such string for its ids. |
| `SongService.FindUrl` | src/app/services/song.service.ts:31 | An entry is found exactly when some entry has the id. The entry found has that id, and no earlier entry has it. |
| `SongService.KeptIndices` | src/app/services/song.service.ts:28-37 | The kept positions are strictly increasing and in range. A position is kept exactly when the song there has a truthy URL. |
| `SongService.JoinedIsKeptSubsequence` | src/app/services/song.service.ts:28-37 | The join is the songs at the kept positions, in input order. Each of them is the input song with only its URL replaced by its first matching entry's URL. |
| `SongService.GenerateSongList` | src/app/services/song.service.ts:28-37 | The loop returns an order-preserving subsequence of the input songs, no longer than the input. Each element is the song at a kept position, with only its URL set from the first matching entry. Every returned URL is truthy. Every song must have an entry. |
| `SongService.KeptIndicesBound` | src/app/services/song.service.ts:28-37 | There are no more kept positions than songs. |
| `SongService.SongListQuery` | src/app/services/song.service.ts:23-24 | For any argument, the query reads back as the ids of the songs in argument order. A single song counts as a list of one. Every part is a numeral without a leading zero, so by `Decimal.IdListUnique` the query is fixed exactly. |
| `SongService.GetSongList` | src/app/services/song.service.ts:22-26 | The query sent is `SongListQuery` of the argument. It reads back as the ids in argument order and has no leading zeros. The answer is the join of those songs with the URL response, and is no longer than the song list. |
| `SongService.ReshapeLyric` | src/app/services/song.service.ts:42-47 | The reshape succeeds exactly when both `lrc` and `tlyric` are present. It then yields their `lyric` texts. A missing `lrc` fails first; otherwise a missing `tlyric` fails. |
| `SongService.ReshapeRoundTrip` | src/app/services/song.service.ts:42-47 | Reshaping the response that carries a lyric gives back that lyric. |
| `SongService.ReshapeIgnoresOtherFields` | src/app/services/song.service.ts:42-47 | Fields of the response other than `lrc` and `tlyric` do not affect the result. |
| `PlayerSelector.FieldSelectorsRebuildState` | src/app/store/selectors/player.selector.ts:9-13 | Each of the five field selectors returns its field unchanged, so together they rebuild the state exactly. |
| `PlayerSelector.GetCurrentSong` | src/app/store/selectors/player.selector.ts:15 | The current song is defined exactly when 0 ≤ currentIndex < the play list's length. It is then `playList[currentIndex]`. |
| `PlayerSelector.CurrentSongFromPlayList` | src/app/store/selectors/player.selector.ts:15 | The current song is a member of the play list, and it depends only on the play list and the index. |
| `PlayerSelector.CurrentSongExample` | src/app/store/selectors/player.selector.ts:15 | With play list [s0, s1], index 1 gives s1 and index 2 gives undefined. |

## Left out

- The rxjs and DOM plumbing is abstracted to the event trace. This covers `fromEvent`, `merge`, the instance-of filters, `pluck`, `tap(sliderEvent)` and `markForCheck`. `takeUntil(end$)` on the move stream is subsumed: move and end are always held together and released together when an end is handled.
- The mouse and touch streams are not told apart. The source keeps one duplicate-position filter per modality; the model keeps a single one, reset whenever a move subscription is newly acquired.
- The inputs `wyVertical`, `wyMin` and `wyMax` (lines 40-42 of the component) are taken as fixed for the component's life. `ngOnChanges` is not modelled, and the coordinate field chosen once in `createDraggingObservable` (line 75) is assumed to match `wyVertical`.
- SliderDrag.DragTraceStaysInRange: holds for fixed bounds only. If `wyMax` is lowered below the stored value, the source keeps that out-of-range value until the next drag or write.
- IEEE infinities are not represented. `writeValue` could receive ±Infinity; the only special value the model has is NaN.
- `getSliderLength` and `getSliderStartPosition` read the DOM. Their results are the `Track` each positional event carries.
- SliderValues.FindClosestValue: requires a track of positive length. A zero-size track divides by zero in the source, which yields an IEEE infinity or NaN; floating point is not modelled.
- SliderValues.LimitNumberInRange: `limitNumberInRange` and `inArray` are helpers outside this model. They are taken to be `Math.min(Math.max(x, lo), hi)` and array membership. `LimitValueInRange` applies the same reading to a non-number, with the coercion `Math.max` performs.
- `getPercent` is outside this model, so the offset stays opaque. The model records which value the offset was last computed from.
- `registerOnChange`, `registerOnTouched` and `onTouched` are left out. `onTouched` is registered but never called. The calls of the change callback are recorded as a list, whichever callback is installed.
- Range mode (array values), `bufferPercent` and string values are left out. The `SliderValue` type is not part of this model, and the component only handles numbers. `null` and `undefined` go through the same `parseFloat` path as strings.
- The model assumes `ngOnInit` runs once. It does not cover re-initialising a destroyed component.
- `getSongUrl`, the HTTP requests, `HttpParams` and `API_CONFIG` are left out. The URL and lyric responses are parameters.
- `Song` metadata is represented by a name. The real record has more fields, all of which the spread copies unchanged.
- SongService.GenerateSongList: requires a URL entry for every song. Without one the source throws a `TypeError`, so the model treats the missing entry as a precondition rather than an error value.
- Decimal.IntToString: covers integer ids only. JavaScript writes numbers from 1e21 upward in exponent form; that is not modelled.
- SongService.ReshapeLyric: a `null` field is treated like an absent one, since both make `.lyric` throw.
- `createSelector` memoisation and the `createFeatureSelector` lookup are left out. The `PlayMode` and action types belong to the reducer, which is not part of this model, so both are opaque labels.

## Findings

| source | as written | input that shows it | evidently intended | confidence | as-written member | corrected member |
|---|---|---|---|---|---|---|
| src/app/share/wy-ui/wy-slider/wy-slider.component.ts:193-205 | `assertValueValid` returns `isNaN(...)`, so it is true only for non-numbers. `formatValue` then replaces every number by wyMin and sends non-numbers to the clamp. | `formatValue(50)` on a 0..100 slider returns 0. | A number is clamped into [wyMin, wyMax] and a non-number becomes wyMin. | not executed; high, by reading the code; no call in the component's TypeScript passes the check flag to `setValue` | `SliderValues.FormatValueAsWrittenLosesValue` | `SliderValues.FormatValue` (used by `SliderDrag.SetValueCheckedIntended`) |

=== FILE: decimal.dfy ===
/** The comma-separated id list that the song service sends as its `id`
    query parameter: JavaScript's number-to-string conversion for integer
    ids, `Array.prototype.join(',')`, and the reading of such a list back
    into ids (`String.prototype.split(',')` followed by a decimal parse),
    a reference reading against which the query is checked. */
module Decimal {
  import opened Wrappers

  predicate IsDigit(c: char) {
    '0' <= c <= '9'
  }

  predicate AllDigits(s: string) {
    forall i :: 0 <= i < |s| ==> IsDigit(s[i])
  }

  function DigitChar(d: nat): (c: char)
    requires d < 10
    ensures IsDigit(c)
  {
    ('0' as int + d) as char
  }

  function DigitValue(c: char): (d: nat)
    requires IsDigit(c)
    ensures d < 10
    ensures DigitChar(d) == c
  {
    (c as int - '0' as int) as nat
  }

  /** A numeral as JavaScript writes a non-negative integer: digits only,
      and no leading zero unless the numeral is "0" itself. */
  predicate Canonical(s: string) {
    |s| > 0 && AllDigits(s) && (|s| == 1 || s[0] != '0')
  }

  /** A numeral as JavaScript writes an integer: a canonical numeral, or a
      '-' followed by a canonical numeral other than "0". */
  predicate CanonicalInt(s: string) {
    Canonical(s) || (|s| > 1 && s[0] == '-' && Canonical(s[1..]) && s[1..] != "0")
  }

  /** The shortest decimal numeral of n. */
  function NatToString(n: nat): (s: string)
    ensures Canonical(s)
    ensures n > 0 ==> s[0] != '0'
    decreases n
  {
    if n < 10 then [DigitChar(n)] else NatToString(n / 10) + [DigitChar(n % 10)]
  }

  /** `String(n)` for an integer n (a leading '-' for a negative one). */
  function IntToString(n: int): (s: string)
    ensures CanonicalInt(s)
    ensures ',' !in s
  {
    if n < 0 then "-" + NatToString(-n) else NatToString(n)
  }

  /** The number a non-empty decimal numeral denotes. */
  function ParseNat(s: string): nat
    requires |s| > 0 && AllDigits(s)
    decreases |s|
  {
    var init := s[..|s| - 1];
    if |init| == 0 then DigitValue(s[0])
    else ParseNat(init) * 10 + DigitValue(s[|s| - 1])
  }

  /** The integer a numeral with an optional leading '-' denotes. */
  function ParseInt(s: string): Option<int> {
    if |s| > 1 && s[0] == '-' && AllDigits(s[1..]) then Some(-(ParseNat(s[1..]) as int))
    else if |s| > 0 && AllDigits(s) then Some(ParseNat(s))
    else None
  }

  lemma {:induction false} ParseNatToString(n: nat)
    ensures ParseNat(NatToString(n)) == n
    decreases n
  {
    var s := NatToString(n);
    if n >= 10 {
      ParseNatToString(n / 10);
      assert s[..|s| - 1] == NatToString(n / 10);
    }
  }

  /** Every integer is recovered from its numeral. */
  lemma ParseIntToString(n: int)
    ensures ParseInt(IntToString(n)) == Some(n)
  {
    if n < 0 {
      ParseNatToString(-n);
      assert IntToString(n)[1..] == NatToString(-n);
    } else {
      ParseNatToString(n);
    }
  }

  /** A numeral that starts with a non-zero digit denotes a positive
      number. */
  lemma {:induction false} ParseNatPositive(s: string)
    requires |s| > 0 && AllDigits(s) && s[0] != '0'
    ensures ParseNat(s) > 0
    decreases |s|
  {
    if |s| > 1 {
      ParseNatPositive(s[..|s| - 1]);
    }
  }

  /** A canonical numeral is the numeral of the number it denotes: no two
      canonical numerals denote the same number. */
  lemma {:induction false} NatToStringParse(s: string)
    requires Canonical(s)
    ensures NatToString(ParseNat(s)) == s
    decreases |s|
  {
    if |s| > 1 {
      var init := s[..|s| - 1];
      var d := DigitValue(s[|s| - 1]);
      NatToStringParse(init);
      ParseNatPositive(init);
      var n := ParseNat(s);
      assert n == ParseNat(init) * 10 + d;
      assert n / 10 == ParseNat(init) && n % 10 == d;
      assert s == init + [s[|s| - 1]];
    }
  }

  /** A canonical integer numeral is the numeral of the integer it
      denotes. */
  lemma IntToStringParse(s: string)
    requires CanonicalInt(s)
    ensures ParseInt(s).Some? && IntToString(ParseInt(s).value) == s
  {
    if Canonical(s) {
      NatToStringParse(s);
    } else {
      var t := s[1..];
      NatToStringParse(t);
      assert t[0] != '0';
      ParseNatPositive(t);
      assert s == "-" + t;
    }
  }

  /** `parts.join(sep)`. */
  function Join(parts: seq<string>, sep: char): (s: string)
    decreases |parts|
  {
    if |parts| == 0 then ""
    else if |parts| == 1 then parts[0]
    else parts[0] + [sep] + Join(parts[1..], sep)
  }

  /** `s.split(sep)`: the pieces between separators, always at least one. */
  function Split(s: string, sep: char): (parts: seq<string>)
    ensures |parts| > 0
    decreases |s|
  {
    if |s| == 0 then [""]
    else if s[0] == sep then [""] + Split(s[1..], sep)
    else
      var rest := Split(s[1..], sep);
      [[s[0]] + rest[0]] + rest[1..]
  }

  /** A piece without the separator, followed by the separator, splits off
      as one part. */
  lemma {:induction false} SplitPrefix(p: string, sep: char, t: string)
    requires sep !in p
    ensures Split(p + [sep] + t, sep) == [p] + Split(t, sep)
    decreases |p|
  {
    if |p| == 0 {
      assert p + [sep] + t == [sep] + t;
      assert ([sep] + t)[1..] == t;
    } else {
      SplitPrefix(p[1..], sep, t);
      assert (p + [sep] + t)[1..] == p[1..] + [sep] + t;
      assert [p[0]] + p[1..] == p;
    }
  }

  /** A string without the separator splits into itself. */
  lemma {:induction false} SplitNoSeparator(p: string, sep: char)
    requires sep !in p
    ensures Split(p, sep) == [p]
    decreases |p|
  {
    if |p| > 0 {
      SplitNoSeparator(p[1..], sep);
      assert [p[0]] + p[1..] == p;
    }
  }

  /** Splitting undoes joining when no part contains the separator. */
  lemma {:induction false} SplitJoin(parts: seq<string>, sep: char)
    requires |parts| > 0
    requires forall i :: 0 <= i < |parts| ==> sep !in parts[i]
    ensures Split(Join(parts, sep), sep) == parts
    decreases |parts|
  {
    if |parts| == 1 {
      SplitNoSeparator(parts[0], sep);
    } else {
      SplitJoin(parts[1..], sep);
      SplitPrefix(parts[0], sep, Join(parts[1..], sep));
      assert [parts[0]] + parts[1..] == parts;
    }
  }

  /** The numerals of some ids, in order. */
  function Numerals(ids: seq<int>): seq<string> {
    seq(|ids|, i requires 0 <= i < |ids| => IntToString(ids[i]))
  }

  /** `ids.join(',')`. */
  function IdList(ids: seq<int>): string {
    Join(Numerals(ids), ',')
  }

  /** Joining the parts of a split gives back the string. */
  lemma {:induction false} JoinSplit(q: string, sep: char)
    ensures Join(Split(q, sep), sep) == q
    decreases |q|
  {
    if |q| > 0 {
      var rest := Split(q[1..], sep);
      JoinSplit(q[1..], sep);
      if q[0] == sep {
        assert ([""] + rest)[1..] == rest;
        assert q == [sep] + q[1..];
      } else {
        var parts := Split(q, sep);
        assert parts == [[q[0]] + rest[0]] + rest[1..];
        if |rest| == 1 {
          assert q == [q[0]] + q[1..];
        } else {
          assert parts[1..] == rest[1..];
          assert Join(rest, sep) == rest[0] + [sep] + Join(rest[1..], sep);
          assert q == [q[0]] + q[1..];
        }
      }
    }
  }

  /** Reads every part as an integer, failing on the first that is not one. */
  function ParseAll(parts: seq<string>): Option<seq<int>>
    decreases |parts|
  {
    if |parts| == 0 then Some([])
    else
      match ParseInt(parts[0])
      case None => None
      case Some(n) =>
        match ParseAll(parts[1..])
        case None => None
        case Some(ns) => Some([n] + ns)
  }

  /** Reads a comma-separated id list; the empty string is the empty list. */
  function ParseIdList(q: string): Option<seq<int>> {
    if q == "" then Some([]) else ParseAll(Split(q, ','))
  }

  /** A query of canonical integer numerals separated by commas; the empty
      query lists no ids. */
  predicate CanonicalIdList(q: string) {
    q == "" || forall i :: 0 <= i < |Split(q, ',')| ==> CanonicalInt(Split(q, ',')[i])
  }

  /** Parts that are canonical numerals are the numerals of the ids they
      read as. */
  lemma {:induction false} ParseAllCanonical(parts: seq<string>, ids: seq<int>)
    requires forall i :: 0 <= i < |parts| ==> CanonicalInt(parts[i])
    requires ParseAll(parts) == Some(ids)
    ensures parts == Numerals(ids)
    decreases |parts|
  {
    if |parts| > 0 {
      IntToStringParse(parts[0]);
      var n := ParseInt(parts[0]).value;
      var ns := ParseAll(parts[1..]).value;
      ParseAllCanonical(parts[1..], ns);
      assert ids == [n] + ns;
      assert parts == [parts[0]] + parts[1..];
    }
  }

  lemma {:induction false} ParseAllNumerals(ids: seq<int>)
    ensures ParseAll(Numerals(ids)) == Some(ids)
    decreases |ids|
  {
    if |ids| > 0 {
      ParseIntToString(ids[0]);
      ParseAllNumerals(ids[1..]);
      assert Numerals(ids)[1..] == Numerals(ids[1..]);
      assert [ids[0]] + ids[1..] == ids;
    }
  }

  /** The id list names exactly the ids it was built from, in order. */
  lemma IdListRoundTrip(ids: seq<int>)
    ensures ParseIdList(IdList(ids)) == Some(ids)
    ensures CanonicalIdList(IdList(ids))
  {
    if |ids| > 0 {
      var parts := Numerals(ids);
      assert Join(parts, ',') != "" by {
        JoinNonEmpty(parts, ',');
      }
      SplitJoin(parts, ',');
      ParseAllNumerals(ids);
    }
  }

  /** The id list is the only canonical query that reads back as its ids:
      a query without leading zeros, stray signs or empty parts that names
      the same ids is the same string. */
  lemma IdListUnique(q: string, ids: seq<int>)
    requires CanonicalIdList(q)
    requires ParseIdList(q) == Some(ids)
    ensures q == IdList(ids)
  {
    if q != "" {
      ParseAllCanonical(Split(q, ','), ids);
      JoinSplit(q, ',');
    }
  }

  lemma {:induction false} JoinNonEmpty(parts: seq<string>, sep: char)
    requires |parts| > 0 && |parts[0]| > 0
    ensures |Join(parts, sep)| > 0
  {
  }
}

=== FILE: player_selector.dfy ===
/** The player-state selectors (src/app/store/selectors/player.selector.ts):
    read-only projections of the player's feature state. Being pure
    functions over an immutable record, they cannot modify the state. */
module PlayerSelector {
  import opened Wrappers
  import SongService

  /** The play mode; its definition lives with the reducer, so the model
      keeps it as an opaque label. */
  datatype PlayMode = PlayMode(name: string)

  /** The action the player last performed, likewise an opaque label. */
  datatype CurrentAction = CurrentAction(name: string)

  /** The fields of the player state that the selectors read. */
  datatype PlayState = PlayState(
    playList: seq<SongService.Song>,
    songList: seq<SongService.Song>,
    playMode: PlayMode,
    currentIndex: int,
    currentAction: CurrentAction)

  function GetPlayList(s: PlayState): seq<SongService.Song> {
    s.playList
  }

  function GetSongList(s: PlayState): seq<SongService.Song> {
    s.songList
  }

  function GetPlayMode(s: PlayState): PlayMode {
    s.playMode
  }

  function GetCurrentIndex(s: PlayState): int {
    s.currentIndex
  }

  function GetCurrentAction(s: PlayState): CurrentAction {
    s.currentAction
  }

  /** The five field selectors lose nothing: together they give back the
      state they read, field for field. */
  lemma FieldSelectorsRebuildState(s: PlayState)
    ensures PlayState(GetPlayList(s), GetSongList(s), GetPlayMode(s), GetCurrentIndex(s), GetCurrentAction(s)) == s
  {
  }

  /** `getCurrentSong`: `playList[currentIndex]`, which is undefined (None)
      when the index is outside the play list. */
  function GetCurrentSong(s: PlayState): (r: Option<SongService.Song>)
    ensures r.Some? <==> 0 <= s.currentIndex < |s.playList|
    ensures r.Some? ==> r.value == s.playList[s.currentIndex]
  {
    if 0 <= s.currentIndex < |s.playList| then Some(s.playList[s.currentIndex]) else None
  }

  /** The current song is a song of the play list, and it depends on the
      play list and the index only. */
  lemma CurrentSongFromPlayList(s: PlayState, t: PlayState)
    ensures GetCurrentSong(s).Some? ==> GetCurrentSong(s).value in s.playList
    ensures s.playList == t.playList && s.currentIndex == t.currentIndex ==> GetCurrentSong(s) == GetCurrentSong(t)
  {
  }

  /** With play list [s0, s1] and index 1 the current song is s1; with
      index 2 it is undefined. */
  lemma CurrentSongExample(s0: SongService.Song, s1: SongService.Song, mode: PlayMode, action: CurrentAction)
    ensures GetCurrentSong(PlayState([s0, s1], [s0, s1], mode, 1, action)) == Some(s1)
    ensures GetCurrentSong(PlayState([s0, s1], [s0, s1], mode, 2, action)) == None
  {
  }
}

=== FILE: slider_drag.dfy ===
/** The drag lifecycle of the slider widget (`WySliderComponent`): the three
    subscription handles, the `isDragging` flag, the stored value with its
    change notifications, and the after-change emissions, driven by a trace
    of abstract events. The event streams themselves (mouse and touch
    sources merged, filtered and plucked to one coordinate) are abstracted
    to the events `Start`, `Move` and `End`; the DOM measurement of the
    track travels with each positional event. */
module SliderDrag {
  import opened Wrappers
  import opened SliderValues

  // ---------------------------------------------------------------------
  // Subscription handles

  /** The phases a drag subscription is held for. */
  datatype Phase = StartPhase | MovePhase | EndPhase

  /** Every phase: the default argument of `subscribeDrag` and
      `unSubscribe`. */
  const AllPhases: set<Phase> := {StartPhase, MovePhase, EndPhase}

  /** The handles `dragStart_`, `dragMove_` and `dragEnd_`, each absent
      (null) or the identity of a live subscription, together with the
      identity the next subscription will receive. */
  datatype Subscriptions = Subscriptions(start: Option<nat>, move: Option<nat>, end: Option<nat>, next: nat)

  function Handle(subs: Subscriptions, p: Phase): Option<nat> {
    match p
    case StartPhase => subs.start
    case MovePhase => subs.move
    case EndPhase => subs.end
  }

  function WithHandle(subs: Subscriptions, p: Phase, h: Option<nat>): (r: Subscriptions)
    ensures Handle(r, p) == h
    ensures forall q :: q != p ==> Handle(r, q) == Handle(subs, q)
    ensures r.next == subs.next
  {
    match p
    case StartPhase => subs.(start := h)
    case MovePhase => subs.(move := h)
    case EndPhase => subs.(end := h)
  }

  /** Every live handle is a distinct subscription issued before `next`. */
  predicate WellFormed(subs: Subscriptions) {
    && (forall p :: Handle(subs, p).Some? ==> Handle(subs, p).value < subs.next)
    && (forall p, q :: p != q && Handle(subs, p).Some? && Handle(subs, q).Some? ==>
          Handle(subs, p).value != Handle(subs, q).value)
  }

  /** One guarded branch of `subscribeDrag`: a phase already held keeps its
      subscription, an empty one receives a fresh subscription. */
  function AcquireOne(subs: Subscriptions, p: Phase): (r: Subscriptions)
    ensures Handle(r, p).Some?
    ensures Handle(subs, p).Some? ==> r == subs
    ensures Handle(subs, p).None? ==> Handle(r, p) == Some(subs.next) && r.next == subs.next + 1
    ensures forall q :: q != p ==> Handle(r, q) == Handle(subs, q)
    ensures WellFormed(subs) ==> WellFormed(r)
  {
    if Handle(subs, p).Some? then subs
    else WithHandle(subs, p, Some(subs.next)).(next := subs.next + 1)
  }

  /** `subscribeDrag(events)`. Nothing is subscribed before the event
      streams exist (`streams` false); otherwise every requested phase ends
      up held, and a live handle is never replaced. */
  function Subscribe(subs: Subscriptions, streams: bool, phases: set<Phase>): (r: Subscriptions)
    ensures !streams ==> r == subs
    ensures forall p :: Handle(subs, p).Some? ==> Handle(r, p) == Handle(subs, p)
    ensures forall p :: p !in phases ==> Handle(r, p) == Handle(subs, p)
    ensures streams ==> forall p :: p in phases ==> Handle(r, p).Some?
    ensures forall p :: Handle(subs, p).None? && Handle(r, p).Some? ==> Handle(r, p).value >= subs.next
    ensures WellFormed(subs) ==> WellFormed(r)
  {
    if !streams then subs
    else
      var a := if StartPhase in phases then AcquireOne(subs, StartPhase) else subs;
      var b := if MovePhase in phases then AcquireOne(a, MovePhase) else a;
      if EndPhase in phases then AcquireOne(b, EndPhase) else b
  }

  /** `unSubscribe(events)`: exactly the requested phases are released. */
  function Unsubscribe(subs: Subscriptions, phases: set<Phase>): (r: Subscriptions)
    ensures forall p :: Handle(r, p) == if p in phases then None else Handle(subs, p)
    ensures r.next == subs.next
    ensures WellFormed(subs) ==> WellFormed(r)
  {
    var a := if StartPhase in phases && subs.start.Some? then subs.(start := None) else subs;
    var b := if MovePhase in phases && a.move.Some? then a.(move := None) else a;
    if EndPhase in phases && b.end.Some? then b.(end := None) else b
  }

  /** Subscribing to phases already requested changes nothing: each phase
      holds at most one subscription however often it is requested. */
  lemma SubscribeIdempotent(subs: Subscriptions, streams: bool, phases: set<Phase>)
    ensures Subscribe(Subscribe(subs, streams, phases), streams, phases) == Subscribe(subs, streams, phases)
  {
    var once := Subscribe(subs, streams, phases);
    if streams {
      assert forall p :: p in phases ==> Handle(once, p).Some?;
      var a := if StartPhase in phases then AcquireOne(once, StartPhase) else once;
      assert a == once;
      var b := if MovePhase in phases then AcquireOne(a, MovePhase) else a;
      assert b == once;
    }
  }

  /** Releasing what was just requested leaves those phases empty and the
      others as they were before the request. */
  lemma UnsubscribeUndoesSubscribe(subs: Subscriptions, streams: bool, phases: set<Phase>)
    ensures forall p :: Handle(Unsubscribe(Subscribe(subs, streams, phases), phases), p) ==
              (if p in phases then None else Handle(subs, p))
  {
  }

  // ---------------------------------------------------------------------
  // The component

  /** The component's state. `streams` records that the drag observables
      exist (`createDraggingObservable` has run); `offsetOf` stands for the
      `offset` field, which is null until the first change and is otherwise
      derived from a value by a percentage helper this model keeps opaque,
      so the model records the value it was derived from; `lastMove` is the
      memory of the move stream's duplicate-position filter; `changes`
      lists the calls of the change callback and `emitted` the values sent
      on `wyOnAfterChange`. */
  datatype Slider = Slider(
    cfg: Config,
    streams: bool,
    subs: Subscriptions,
    dragging: bool,
    value: JsValue,
    offsetOf: Option<JsValue>,
    lastMove: Option<real>,
    changes: seq<JsValue>,
    emitted: seq<JsValue>)

  /** A freshly constructed component. */
  function Initial(cfg: Config): Slider {
    Slider(cfg, false, Subscriptions(None, None, None, 0), false, Undefined, None, None, [], [])
  }

  /** The offset is always the one derived from the current value. */
  predicate OffsetInSync(s: Slider) {
    (s.offsetOf.None? && s.value == Undefined) || s.offsetOf == Some(s.value)
  }

  /** What every reachable state satisfies: distinct live subscriptions;
      move and end held together and only during a drag that a start
      subscription began; nothing held before the streams exist; the
      offset in step with the value. */
  predicate Inv(s: Slider) {
    && WellFormed(s.subs)
    && (s.subs.move.Some? <==> s.subs.end.Some?)
    && (s.subs.move.Some? ==> s.dragging && s.subs.start.Some?)
    && (s.subs.start.Some? ==> s.streams)
    && OffsetInSync(s)
  }

  /** `setValue(value)` without a check, which is also the `writeValue`
      path: a value that `valueEqual` finds equal to the stored one changes
      nothing; any other value is stored, the offset is recomputed from it
      and the change callback is called with it. */
  function SetValue(s: Slider, v: JsValue): (r: Slider)
    ensures r.value == v
    ensures s.value == v && !v.NaN? ==> r == s
    ensures !(s.value == v && !v.NaN?) ==> r.changes == s.changes + [v] && r.offsetOf == Some(v)
    ensures r.subs == s.subs && r.dragging == s.dragging && r.streams == s.streams
    ensures r.emitted == s.emitted && r.lastMove == s.lastMove && r.cfg == s.cfg
    ensures OffsetInSync(s) ==> OffsetInSync(r)
  {
    if ValueEqual(s.value, v) then s
    else s.(value := v, offsetOf := Some(v), changes := s.changes + [v])
  }

  /** `setValue(value, true)` as written: ignored unless dragging;
      otherwise stores the value through the as-written `formatValue`,
      without recomputing the offset or notifying. A number is therefore
      stored as wyMin, and NaN or undefined as NaN. */
  function SetValueChecked(s: Slider, v: JsValue): (r: Slider)
    ensures !s.dragging ==> r == s
    ensures s.dragging && v.Num? ==> r.value == Num(s.cfg.min)
    ensures s.dragging && (v.NaN? || v.Undefined?) ==> r.value == NaN
    ensures s.dragging && s.cfg.min <= s.cfg.max && r.value.Num? ==> s.cfg.min <= r.value.n <= s.cfg.max
    ensures r.changes == s.changes && r.offsetOf == s.offsetOf && r.subs == s.subs && r.emitted == s.emitted
  {
    if !s.dragging then s
    else s.(value := FormatValueAsWritten(s.cfg, v))
  }

  /** During a drag on a 0..100 slider, a checked write of 50 stores 0. */
  lemma SetValueCheckedLosesValue(s: Slider)
    requires s.dragging && s.cfg.min == 0.0 && s.cfg.max == 100.0
    ensures SetValueChecked(s, Num(50.0)).value == Num(0.0)
  {
  }

  /** `setValue(value, true)` with the intended formatting: ignored unless
      dragging; otherwise stores the value clamped into [wyMin, wyMax], a
      non-number becoming wyMin. */
  function SetValueCheckedIntended(s: Slider, v: JsValue): (r: Slider)
    ensures !s.dragging ==> r == s
    ensures s.dragging && s.cfg.min <= s.cfg.max ==> r.value.Num? && s.cfg.min <= r.value.n <= s.cfg.max
    ensures s.dragging && v.Num? && s.cfg.min <= v.n <= s.cfg.max ==> r.value == v
    ensures s.dragging && !v.Num? ==> r.value == Num(s.cfg.min)
    ensures r.changes == s.changes && r.offsetOf == s.offsetOf && r.subs == s.subs && r.emitted == s.emitted
  {
    if !s.dragging then s
    else s.(value := Num(FormatValue(s.cfg, v)))
  }

  /** `toggleDragMoving(movable)`: sets the dragging flag and acquires, or
      releases, the move and end subscriptions. A newly acquired move
      subscription starts with an empty duplicate filter. */
  function ToggleDragMoving(s: Slider, movable: bool): (r: Slider)
    ensures r.dragging == movable
    ensures r.subs.start == s.subs.start
    ensures movable && s.streams ==> r.subs.move.Some? && r.subs.end.Some?
    ensures !movable ==> r.subs.move.None? && r.subs.end.None?
    ensures r.value == s.value && r.offsetOf == s.offsetOf && r.changes == s.changes && r.emitted == s.emitted
  {
    if movable then
      s.(dragging := true,
         subs := Subscribe(s.subs, s.streams, {MovePhase, EndPhase}),
         lastMove := if s.subs.move.None? then None else s.lastMove)
    else
      s.(dragging := false, subs := Unsubscribe(s.subs, {MovePhase, EndPhase}))
  }

  /** `onDragStart(value)`: the drag begins, move and end are listened to,
      and the start position's value is adopted at once. */
  function OnDragStart(s: Slider, v: real): (r: Slider)
    ensures r.dragging
    ensures r.value == Num(v)
    ensures s.streams ==> r.subs.move.Some? && r.subs.end.Some?
    ensures r.subs.start == s.subs.start
    ensures forall p :: Handle(s.subs, p).Some? ==> Handle(r.subs, p) == Handle(s.subs, p)
    ensures r.emitted == s.emitted
  {
    SetValue(ToggleDragMoving(s, true), Num(v))
  }

  /** `onDragMove(value)`: only a drag in progress adopts the value. */
  function OnDragMove(s: Slider, v: real): (r: Slider)
    ensures !s.dragging ==> r == s
    ensures s.dragging ==> r.value == Num(v) && r.subs == s.subs && r.dragging && r.emitted == s.emitted
  {
    if s.dragging then SetValue(s, Num(v)) else s
  }

  /** `onDragEnd()`: emits the current value once, ends the drag and
      releases move and end while keeping start. */
  function OnDragEnd(s: Slider): (r: Slider)
    ensures r.emitted == s.emitted + [s.value]
    ensures !r.dragging
    ensures r.subs.move.None? && r.subs.end.None? && r.subs.start == s.subs.start
    ensures r.value == s.value && r.changes == s.changes
  {
    ToggleDragMoving(s.(emitted := s.emitted + [s.value]), false)
  }

  /** `ngOnInit()`: builds the drag streams and listens for drag starts
      only. */
  function NgOnInit(s: Slider): (r: Slider)
    ensures r.streams && r.subs.start.Some?
    ensures r.subs.move == s.subs.move && r.subs.end == s.subs.end
    ensures r.dragging == s.dragging && r.value == s.value && r.emitted == s.emitted
  {
    s.(streams := true, subs := Subscribe(s.subs, true, {StartPhase}))
  }

  /** `ngOnDestroy()`: releases every subscription whatever the drag phase;
      nothing else changes, not even the dragging flag. */
  function NgOnDestroy(s: Slider): (r: Slider)
    ensures forall p :: Handle(r.subs, p).None?
    ensures r.dragging == s.dragging && r.value == s.value && r.offsetOf == s.offsetOf
    ensures r.changes == s.changes && r.emitted == s.emitted && r.streams == s.streams
  {
    s.(subs := Unsubscribe(s.subs, AllPhases))
  }

  // ---------------------------------------------------------------------
  // Event traces

  /** What reaches the component: lifecycle hooks, a drag start, move or
      end already reduced to one page coordinate (with the track measured
      at that moment), and a write through the bindable-control contract. */
  datatype Event =
    | Init
    | Start(position: real, track: Track)
    | Move(position: real, track: Track)
    | End
    | Write(v: JsValue)
    | Destroy

  /** Positional events come from a laid-out track. */
  predicate ValidEvent(e: Event) {
    (e.Start? || e.Move?) ==> Measured(e.track)
  }

  predicate ValidTrace(es: seq<Event>) {
    forall i :: 0 <= i < |es| ==> ValidEvent(es[i])
  }

  /** One event. A positional event or an end is handled only while its
      phase is subscribed; a move repeating the previous move's coordinate
      is dropped by the duplicate filter before it is mapped. */
  function Step(s: Slider, e: Event): (r: Slider)
    requires ValidEvent(e)
    ensures Inv(s) ==> Inv(r)
  {
    match e
    case Init => NgOnInit(s)
    case Start(position, track) =>
      if s.subs.start.Some? then OnDragStart(s, FindClosestValue(s.cfg, track, position)) else s
    case Move(position, track) =>
      if s.subs.move.None? || s.lastMove == Some(position) then s
      else OnDragMove(s.(lastMove := Some(position)), FindClosestValue(s.cfg, track, position))
    case End =>
      if s.subs.end.Some? then OnDragEnd(s) else s
    case Write(v) => SetValue(s, v)
    case Destroy => NgOnDestroy(s)
  }

  /** The state after a whole trace. */
  function Run(s: Slider, es: seq<Event>): (r: Slider)
    requires ValidTrace(es)
    ensures Inv(s) ==> Inv(r)
    decreases |es|
  {
    if |es| == 0 then s else Run(Step(s, es[0]), es[1..])
  }

  lemma {:induction false} RunAppend(s: Slider, a: seq<Event>, b: seq<Event>)
    requires ValidTrace(a) && ValidTrace(b)
    ensures ValidTrace(a + b)
    ensures Run(s, a + b) == Run(Run(s, a), b)
    decreases |a|
  {
    assert ValidTrace(a + b) by {
      forall i | 0 <= i < |a + b|
        ensures ValidEvent((a + b)[i])
      {
        if i < |a| { assert (a + b)[i] == a[i]; } else { assert (a + b)[i] == b[i - |a|]; }
      }
    }
    if |a| > 0 {
      assert (a + b)[0] == a[0];
      assert (a + b)[1..] == a[1..] + b;
      RunAppend(Step(s, a[0]), a[1..], b);
    } else {
      assert a + b == b;
    }
  }

  // ---------------------------------------------------------------------
  // Properties of gestures

  /** Waiting for a gesture: listening for starts and not dragging. */
  predicate Idle(s: Slider) {
    Inv(s) && s.subs.start.Some? && !s.dragging
  }

  /** In the middle of a gesture: all three phases held. */
  predicate Dragging(s: Slider) {
    Inv(s) && s.dragging && s.subs.start.Some? && s.subs.move.Some? && s.subs.end.Some?
  }

  /** An event that may occur between a gesture's start and its end. */
  predicate InGesture(e: Event) {
    e.Start? || e.Move? || e.Write?
  }

  /** A freshly initialised component waits for a gesture. */
  lemma InitialisedIsIdle(cfg: Config)
    ensures Idle(Step(Initial(cfg), Init))
  {
  }

  /** After a start on an idle component, the drag is in progress and the
      start position's value is stored. */
  lemma StartBeginsDrag(s: Slider, position: real, track: Track)
    requires Idle(s)
    requires Measured(track)
    ensures Dragging(Step(s, Start(position, track)))
    ensures Step(s, Start(position, track)).value == Num(FindClosestValue(s.cfg, track, position))
    ensures Step(s, Start(position, track)).emitted == s.emitted
  {
  }

  /** Events inside a gesture keep the drag going, keep every
      subscription, and emit nothing. */
  lemma {:induction false} GestureContinues(s: Slider, es: seq<Event>)
    requires Dragging(s)
    requires ValidTrace(es)
    requires forall i :: 0 <= i < |es| ==> InGesture(es[i])
    ensures Dragging(Run(s, es))
    ensures Run(s, es).subs == s.subs
    ensures Run(s, es).emitted == s.emitted
    decreases |es|
  {
    if |es| > 0 {
      var t := Step(s, es[0]);
      assert t.subs == s.subs && t.emitted == s.emitted && t.dragging;
      GestureContinues(t, es[1..]);
    }
  }

  /** A gesture (a start, any moves, restarts and writes, and an end)
      emits exactly once, the value held when it ends; it leaves the
      component idle with the same start subscription, and a further end
      is not handled. */
  lemma {:induction false} GestureEmitsOnce(s: Slider, position: real, track: Track, mids: seq<Event>)
    requires Idle(s)
    requires Measured(track)
    requires ValidTrace(mids)
    requires forall i :: 0 <= i < |mids| ==> InGesture(mids[i])
    ensures ValidTrace([Start(position, track)] + mids + [End])
    ensures
      var g := [Start(position, track)] + mids;
      var last := Run(s, g + [End]);
      && last.emitted == s.emitted + [Run(s, g).value]
      && Idle(last)
      && last.subs.start == s.subs.start
      && Step(last, End) == last
  {
    var st: seq<Event> := [Start(position, track)];
    assert ValidTrace(st);
    assert ValidTrace([End]);
    RunAppend(s, st, mids);
    var g := st + mids;
    RunAppend(s, g, [End]);
    var begun := Step(s, Start(position, track));
    assert Run(s, st) == begun;
    StartBeginsDrag(s, position, track);
    GestureContinues(begun, mids);
    var before := Run(s, g);
    assert Run(before, [End]) == OnDragEnd(before);
  }

  /** A move repeating the previous move's coordinate changes nothing, even
      if the track was measured differently in between. */
  lemma DuplicateMoveIgnored(s: Slider, position: real, t1: Track, t2: Track)
    requires Measured(t1) && Measured(t2)
    requires Inv(s)
    ensures Step(Step(s, Move(position, t1)), Move(position, t2)) == Step(s, Move(position, t1))
  {
  }

  /** A move while not dragging changes nothing. */
  lemma MoveOutsideDragIgnored(s: Slider, position: real, track: Track)
    requires Measured(track)
    requires Inv(s)
    requires !s.dragging
    ensures Step(s, Move(position, track)) == s
  {
  }

  /** After destruction, whatever the drag phase was, no start, move or end
      is handled any more. */
  lemma {:induction false} DestroyedIsInert(s: Slider, es: seq<Event>)
    requires ValidTrace(es)
    requires forall i :: 0 <= i < |es| ==> es[i].Start? || es[i].Move? || es[i].End? || es[i].Destroy?
    ensures Run(NgOnDestroy(s), es) == NgOnDestroy(s)
    decreases |es|
  {
    if |es| > 0 {
      var d := NgOnDestroy(s);
      assert Handle(d.subs, StartPhase).None? && Handle(d.subs, MovePhase).None? && Handle(d.subs, EndPhase).None?;
      assert Step(d, es[0]) == d;
      DestroyedIsInert(s, es[1..]);
    }
  }

  /** Writing the same value twice notifies once, unless it is NaN. */
  lemma RepeatedWriteNotifiesOnce(s: Slider, v: JsValue)
    requires !v.NaN?
    ensures Step(Step(s, Write(v)), Write(v)) == Step(s, Write(v))
    ensures |Step(s, Write(v)).changes| <= |s.changes| + 1
  {
  }

  /** NaN is never `valueEqual` to itself, so every write of NaN notifies
      again. */
  lemma RepeatedNaNWriteNotifiesAgain(s: Slider)
    ensures |Step(Step(s, Write(NaN)), Write(NaN)).changes| == |s.changes| + 2
  {
  }

  // ---------------------------------------------------------------------
  // Values reached by dragging alone

  predicate InRange(cfg: Config, v: JsValue) {
    v.Num? && cfg.min <= v.n <= cfg.max
  }

  /** Without external writes, the stored value, every change notified and
      every value emitted lie in [wyMin, wyMax]. */
  predicate ValuesInRange(s: Slider) {
    && (s.value == Undefined || InRange(s.cfg, s.value))
    && (s.subs.end.Some? ==> InRange(s.cfg, s.value))
    && (forall i :: 0 <= i < |s.changes| ==> InRange(s.cfg, s.changes[i]))
    && (forall i :: 0 <= i < |s.emitted| ==> InRange(s.cfg, s.emitted[i]))
  }

  lemma StepKeepsValuesInRange(s: Slider, e: Event)
    requires Inv(s) && ValuesInRange(s)
    requires s.cfg.min <= s.cfg.max
    requires ValidEvent(e) && !e.Write?
    ensures ValuesInRange(Step(s, e))
    ensures Step(s, e).cfg == s.cfg
  {
    match e {
      case Start(position, track) =>
        if s.subs.start.Some? {
          var v := FindClosestValue(s.cfg, track, position);
          var t := ToggleDragMoving(s, true);
          assert ValuesInRange(t.(value := Num(v)));
        }
      case Move(position, track) =>
      case _ =>
    }
  }

  /** Driven only by drag gestures and the lifecycle, the slider never stores,
      notifies or emits a value outside [wyMin, wyMax]. */
  lemma {:induction false} DragTraceStaysInRange(s: Slider, es: seq<Event>)
    requires Inv(s) && ValuesInRange(s)
    requires s.cfg.min <= s.cfg.max
    requires ValidTrace(es)
    requires forall i :: 0 <= i < |es| ==> !es[i].Write?
    ensures ValuesInRange(Run(s, es))
    ensures Run(s, es).cfg == s.cfg
    decreases |es|
  {
    if |es| > 0 {
      StepKeepsValuesInRange(s, es[0]);
      DragTraceStaysInRange(Step(s, es[0]), es[1..]);
    }
  }
}

=== FILE: slider_values.dfy ===
/** The value domain of the slider widget (`WySliderComponent` in
    src/app/share/wy-ui/wy-slider/wy-slider.component.ts): the values it
    stores and compares, the position-to-value mapping, and value
    formatting. Floating point is modelled by `real`; NaN, the one IEEE special
    value the model represents, is a constructor of its own. */
module SliderValues {

  /** A slider value as JavaScript sees it: `undefined` (the field before
      the first write), `null`, NaN, or an ordinary number. */
  datatype JsValue = Undefined | Null | NaN | Num(n: real)

  /** The slider's inputs `wyVertical`, `wyMin` and `wyMax`. */
  datatype Config = Config(vertical: bool, min: real, max: real)

  /** A live measurement of the track: its pixel length (client width, or
      client height when vertical) and the page coordinate of its left, or
      top, end. */
  datatype Track = Track(length: real, start: real)

  /** The track has been laid out with a positive size. */
  predicate Measured(t: Track) {
    t.length > 0.0
  }

  // ---------------------------------------------------------------------
  // valueEqual

  /** `typeof` of a value. */
  function TypeOf(v: JsValue): string {
    match v
    case Undefined => "undefined"
    case Null => "object"
    case NaN => "number"
    case Num(_) => "number"
  }

  /** JavaScript's `===`: NaN is equal to nothing, itself included. */
  predicate StrictEquals(a: JsValue, b: JsValue) {
    match (a, b)
    case (Undefined, Undefined) => true
    case (Null, Null) => true
    case (Num(x), Num(y)) => x == y
    case _ => false
  }

  /** `valueEqual`: the same `typeof` and `===`. It coincides with equality
      of the model's values except that NaN is never equal to itself. */
  function ValueEqual(a: JsValue, b: JsValue): (r: bool)
    ensures r <==> a == b && !a.NaN?
  {
    if TypeOf(a) != TypeOf(b) then false else StrictEquals(a, b)
  }

  // ---------------------------------------------------------------------
  // findClosestValue

  /** `limitNumberInRange` from the utilities, taken to be
      `Math.min(Math.max(x, lo), hi)`. */
  function LimitNumberInRange(x: real, lo: real, hi: real): (r: real)
    ensures lo <= hi ==> lo <= r <= hi
    ensures lo <= x <= hi ==> r == x
    ensures x <= lo <= hi ==> r == lo
    ensures lo <= hi <= x ==> r == hi
  {
    var atLeast := if x < lo then lo else x;
    if atLeast > hi then hi else atLeast
  }

  /** r lies between a and b, whichever of the two is larger. */
  predicate Between(r: real, a: real, b: real) {
    (a <= r <= b) || (b <= r <= a)
  }

  /** The product of two non-negative numbers is non-negative. */
  lemma NonnegProduct(a: real, b: real)
    requires 0.0 <= a && 0.0 <= b
    ensures 0.0 <= a * b
  {
  }

  /** Multiplying by a non-negative factor preserves order. */
  lemma MultiplyMonotone(a: real, b: real, c: real)
    requires a <= b
    requires 0.0 <= c
    ensures a * c <= b * c
  {
    NonnegProduct(b - a, c);
    assert (b - a) * c == b * c - a * c;
  }

  /** Scaling a ratio in [0, 1] onto [lo, hi] stays between lo and hi. */
  lemma ScaleBetween(t: real, lo: real, hi: real)
    requires 0.0 <= t <= 1.0
    ensures Between(t * (hi - lo) + lo, lo, hi)
  {
    if lo <= hi {
      NonnegProduct(t, hi - lo);
      NonnegProduct(1.0 - t, hi - lo);
      assert (1.0 - t) * (hi - lo) == (hi - lo) - t * (hi - lo);
    } else {
      NonnegProduct(t, lo - hi);
      NonnegProduct(1.0 - t, lo - hi);
      assert (1.0 - t) * (lo - hi) == (lo - hi) - t * (lo - hi);
      assert t * (lo - hi) == - (t * (hi - lo));
    }
  }

  /** The clamped ratio of a position along the track, before the vertical
      inversion. */
  function TrackRatio(track: Track, position: real): (ratio: real)
    requires Measured(track)
    ensures 0.0 <= ratio <= 1.0
  {
    LimitNumberInRange((position - track.start) / track.length, 0.0, 1.0)
  }

  /** The value a clamped ratio stands for: inverted for a vertical slider
      (whose top end is the maximum) and scaled onto [wyMin, wyMax]. */
  function ScaleRatio(cfg: Config, ratio: real): real {
    var ratioTrue := if cfg.vertical then 1.0 - ratio else ratio;
    ratioTrue * (cfg.max - cfg.min) + cfg.min
  }

  /** `findClosestValue`: the value a drag at `position` selects. The
      position is turned into a ratio along the track, clamped to [0, 1],
      and scaled by `ScaleRatio`. */
  function FindClosestValue(cfg: Config, track: Track, position: real): (r: real)
    requires Measured(track)
    ensures Between(r, cfg.min, cfg.max)
    ensures cfg.min <= cfg.max ==> cfg.min <= r <= cfg.max
    ensures position <= track.start ==> r == if cfg.vertical then cfg.max else cfg.min
    ensures position >= track.start + track.length ==> r == if cfg.vertical then cfg.min else cfg.max
  {
    var ratio := TrackRatio(track, position);
    ScaleBetween(if cfg.vertical then 1.0 - ratio else ratio, cfg.min, cfg.max);
    TrackRatioAtEnds(track, position);
    ScaleRatio(cfg, ratio)
  }

  /** Dividing by a positive length preserves order. */
  lemma DivideMonotone(a: real, b: real, len: real)
    requires len > 0.0
    requires a <= b
    ensures a / len <= b / len
  {
    assert b / len - a / len == (b - a) / len;
  }

  /** The ratio is 0 at or before the track's start and 1 at or after its
      end. */
  lemma TrackRatioAtEnds(track: Track, position: real)
    requires Measured(track)
    ensures position <= track.start ==> TrackRatio(track, position) == 0.0
    ensures position >= track.start + track.length ==> TrackRatio(track, position) == 1.0
  {
    if position <= track.start {
      DivideMonotone(position - track.start, 0.0, track.length);
    }
    if position >= track.start + track.length {
      DivideMonotone(track.length, position - track.start, track.length);
      assert track.length / track.length == 1.0;
    }
  }

  /** A position further along the track has a ratio at least as large. */
  lemma TrackRatioMonotone(track: Track, p: real, q: real)
    requires Measured(track)
    requires p <= q
    ensures TrackRatio(track, p) <= TrackRatio(track, q)
  {
    DivideMonotone(p - track.start, q - track.start, track.length);
  }

  /** A larger ratio selects a larger value on a horizontal slider and a
      smaller one on a vertical slider. */
  lemma ScaleRatioMonotone(cfg: Config, a: real, b: real)
    requires cfg.min <= cfg.max
    requires a <= b
    ensures !cfg.vertical ==> ScaleRatio(cfg, a) <= ScaleRatio(cfg, b)
    ensures cfg.vertical ==> ScaleRatio(cfg, a) >= ScaleRatio(cfg, b)
  {
    if cfg.vertical {
      MultiplyMonotone(1.0 - b, 1.0 - a, cfg.max - cfg.min);
    } else {
      MultiplyMonotone(a, b, cfg.max - cfg.min);
    }
  }

  /** Moving the drag position towards the track's far end never decreases a
      horizontal slider's value and never increases a vertical one's. */
  lemma {:induction false} FindClosestValueMonotone(cfg: Config, track: Track, p: real, q: real)
    requires Measured(track)
    requires cfg.min <= cfg.max
    requires p <= q
    ensures !cfg.vertical ==> FindClosestValue(cfg, track, p) <= FindClosestValue(cfg, track, q)
    ensures cfg.vertical ==> FindClosestValue(cfg, track, p) >= FindClosestValue(cfg, track, q)
  {
    TrackRatioMonotone(track, p, q);
    ScaleRatioMonotone(cfg, TrackRatio(track, p), TrackRatio(track, q));
  }

  /** The position on the track that selects `v`: the inverse of
      `FindClosestValue` on a non-degenerate range. */
  function ValueToPosition(cfg: Config, track: Track, v: real): real
    requires cfg.min < cfg.max
  {
    var ratio := (v - cfg.min) / (cfg.max - cfg.min);
    var ratioTrue := if cfg.vertical then 1.0 - ratio else ratio;
    track.start + ratioTrue * track.length
  }

  /** Every value in [wyMin, wyMax] is selected by the position
      `ValueToPosition` gives for it. */
  lemma {:induction false} ValueRoundTrip(cfg: Config, track: Track, v: real)
    requires Measured(track)
    requires cfg.min < cfg.max
    requires cfg.min <= v <= cfg.max
    ensures FindClosestValue(cfg, track, ValueToPosition(cfg, track, v)) == v
  {
    var d := cfg.max - cfg.min;
    var ratio := (v - cfg.min) / d;
    assert ratio * d == v - cfg.min;
    assert 0.0 * d <= ratio * d <= 1.0 * d;
    assert 0.0 <= ratio <= 1.0;
    var ratioTrue := if cfg.vertical then 1.0 - ratio else ratio;
    var p := ValueToPosition(cfg, track, v);
    assert p == track.start + ratioTrue * track.length;
    assert (p - track.start) / track.length == ratioTrue;
    assert TrackRatio(track, p) == ratioTrue;
  }

  /** Every position on the track is recovered from the value it selects:
      within the track the mapping loses nothing. */
  lemma {:induction false} PositionRoundTrip(cfg: Config, track: Track, p: real)
    requires Measured(track)
    requires cfg.min < cfg.max
    requires track.start <= p <= track.start + track.length
    ensures ValueToPosition(cfg, track, FindClosestValue(cfg, track, p)) == p
  {
    var d := cfg.max - cfg.min;
    var raw := (p - track.start) / track.length;
    assert raw * track.length == p - track.start;
    assert 0.0 * track.length <= raw * track.length <= 1.0 * track.length;
    assert 0.0 <= raw <= 1.0;
    assert TrackRatio(track, p) == raw;
    var ratioTrue := if cfg.vertical then 1.0 - raw else raw;
    var v := FindClosestValue(cfg, track, p);
    assert v == ratioTrue * d + cfg.min;
    assert (v - cfg.min) / d == ratioTrue;
  }

  // ---------------------------------------------------------------------
  // formatValue / assertValueValid

  /** `parseFloat` of a value. A non-number is first turned into its
      string form, "undefined" or "null", which is not a numeral, so the
      result is NaN; a number's string form parses back to the number. */
  function ParseFloat(v: JsValue): (r: JsValue)
    ensures TypeOf(r) == "number"
  {
    match v
    case Num(_) => v
    case _ => NaN
  }

  /** The global `isNaN` on a value of type "number". */
  predicate IsNaN(v: JsValue) {
    v.NaN?
  }

  /** `assertValueValid` as written: `isNaN` of the value, parsed first when
      its `typeof` is not "number". It holds exactly for the values that are
      NOT numbers, the opposite of what its name promises. */
  predicate AssertValueValidAsWritten(v: JsValue)
    ensures AssertValueValidAsWritten(v) <==> !v.Num?
  {
    IsNaN(if TypeOf(v) != "number" then ParseFloat(v) else v)
  }

  /** The coercion `Math.max` and `Math.min` apply to an argument:
      undefined becomes NaN and null becomes 0. */
  function ToNumber(v: JsValue): JsValue {
    match v
    case Undefined => NaN
    case Null => Num(0.0)
    case _ => v
  }

  /** `limitNumberInRange` applied to a value of any type: a NaN argument,
      after coercion, makes the result NaN; any other value is clamped. */
  function LimitValueInRange(v: JsValue, lo: real, hi: real): (r: JsValue)
    ensures r.NaN? <==> v.NaN? || v.Undefined?
    ensures lo <= hi && r.Num? ==> lo <= r.n <= hi
    ensures v.Num? && lo <= v.n <= hi ==> r == v
  {
    match ToNumber(v)
    case Num(x) => Num(LimitNumberInRange(x, lo, hi))
    case _ => NaN
  }

  /** `formatValue` as written. A number is judged invalid and replaced by
      wyMin whatever it was; NaN and undefined go through the clamp and come
      out as NaN; null is clamped as 0. */
  function FormatValueAsWritten(cfg: Config, v: JsValue): (r: JsValue)
    ensures r.Num? || r.NaN?
    ensures v.Num? ==> r == Num(cfg.min)
    ensures v.NaN? || v.Undefined? ==> r.NaN?
    ensures v.Null? ==> r == Num(LimitNumberInRange(0.0, cfg.min, cfg.max))
    ensures cfg.min <= cfg.max && r.Num? ==> cfg.min <= r.n <= cfg.max
  {
    if !AssertValueValidAsWritten(v) then Num(cfg.min)
    else LimitValueInRange(v, cfg.min, cfg.max)
  }

  /** A number strictly inside the range is not kept by the as-written
      `formatValue`: 50 on a 0..100 slider becomes 0. */
  lemma FormatValueAsWrittenLosesValue()
    ensures FormatValueAsWritten(Config(false, 0.0, 100.0), Num(50.0)) == Num(0.0)
    ensures FormatValueAsWritten(Config(false, 0.0, 100.0), Num(50.0)) != Num(50.0)
  {
  }

  /** The as-written and the intended `formatValue` disagree on every number
      of the range other than wyMin, and on NaN and undefined. */
  lemma FormatValueAsWrittenDiffers(cfg: Config, v: JsValue)
    requires (v.Num? && cfg.min < v.n <= cfg.max) || v.NaN? || v.Undefined?
    ensures FormatValueAsWritten(cfg, v) != Num(FormatValue(cfg, v))
  {
  }

  /** `formatValue` as intended: a non-number becomes wyMin and a number is
      clamped into [wyMin, wyMax]. */
  function FormatValue(cfg: Config, v: JsValue): (r: real)
    ensures cfg.min <= cfg.max ==> cfg.min <= r <= cfg.max
    ensures v.Num? && cfg.min <= v.n <= cfg.max ==> r == v.n
    ensures !v.Num? ==> r == cfg.min
  {
    match v
    case Num(x) => LimitNumberInRange(x, cfg.min, cfg.max)
    case _ => cfg.min
  }

  /** Formatting twice is formatting once. */
  lemma FormatValueIdempotent(cfg: Config, v: JsValue)
    requires cfg.min <= cfg.max
    ensures FormatValue(cfg, Num(FormatValue(cfg, v))) == FormatValue(cfg, v)
  {
  }
}

=== FILE: song_service.dfy ===
/** The response reshaping of `SongService`
    (src/app/services/song.service.ts): attaching playable URLs to songs,
    building the id query for a song or a list of songs, and reshaping a
    lyric response. The HTTP requests themselves are not modelled: a
    response is a parameter. */
module SongService {
  import opened Wrappers
  import Decimal

  /** A song: its id, the rest of its metadata (represented by its name),
      and the playable URL once one is attached. */
  datatype Song = Song(id: int, name: string, url: Option<string>)

  /** One entry of the `song/url` response; `url` is None when the
      catalogue sends null. */
  datatype SongUrl = SongUrl(id: int, url: Option<string>)

  /** JavaScript truthiness of a URL: present and non-empty. */
  predicate Truthy(u: Option<string>) {
    u.Some? && u.value != ""
  }

  // ---------------------------------------------------------------------
  // generateSongList

  /** Some entry carries this id. */
  predicate HasEntry(urls: seq<SongUrl>, id: int) {
    exists j :: 0 <= j < |urls| && urls[j].id == id
  }

  /** `urls.find(url => url.id === id)`: the first entry with this id. */
  function FindUrl(urls: seq<SongUrl>, id: int): (r: Option<SongUrl>)
    ensures r.Some? <==> HasEntry(urls, id)
    ensures r.Some? ==> exists j :: 0 <= j < |urls| && urls[j] == r.value && r.value.id == id
                          && forall k :: 0 <= k < j ==> urls[k].id != id
    decreases |urls|
  {
    if |urls| == 0 then None
    else if urls[0].id == id then Some(urls[0])
    else
      var r := FindUrl(urls[1..], id);
      assert HasEntry(urls[1..], id) ==> HasEntry(urls, id) by {
        if HasEntry(urls[1..], id) {
          var j :| 0 <= j < |urls[1..]| && urls[1..][j].id == id;
          assert urls[j + 1].id == id;
        }
      }
      assert HasEntry(urls, id) ==> HasEntry(urls[1..], id) by {
        if HasEntry(urls, id) {
          var j :| 0 <= j < |urls| && urls[j].id == id;
          assert j > 0 && urls[1..][j - 1].id == id;
        }
      }
      assert r.Some? ==> exists j :: 0 <= j < |urls| && urls[j] == r.value && r.value.id == id
                          && forall k :: 0 <= k < j ==> urls[k].id != id by {
        if r.Some? {
          var j :| 0 <= j < |urls[1..]| && urls[1..][j] == r.value && r.value.id == id
                   && forall k :: 0 <= k < j ==> urls[1..][k].id != id;
          assert urls[j + 1] == r.value;
          forall k | 0 <= k < j + 1 ensures urls[k].id != id {
            if k > 0 { assert urls[k] == urls[1..][k - 1]; }
          }
        }
      }
      r
  }

  /** Every song has an entry: otherwise `find` yields undefined and reading
      its `url` throws. */
  predicate Resolvable(songs: seq<Song>, urls: seq<SongUrl>) {
    forall i :: 0 <= i < |songs| ==> HasEntry(urls, songs[i].id)
  }

  /** The URL found for a song. */
  function UrlOf(song: Song, urls: seq<SongUrl>): Option<string>
    requires HasEntry(urls, song.id)
  {
    FindUrl(urls, song.id).value.url
  }

  /** The song is kept: its URL is truthy. */
  predicate Kept(song: Song, urls: seq<SongUrl>)
    requires HasEntry(urls, song.id)
  {
    Truthy(UrlOf(song, urls))
  }

  /** `{...song, url}`: the song with only its URL replaced. */
  function Attach(song: Song, urls: seq<SongUrl>): Song
    requires HasEntry(urls, song.id)
  {
    song.(url := UrlOf(song, urls))
  }

  /** The reference result of the join, one song at a time in input order. */
  function Joined(songs: seq<Song>, urls: seq<SongUrl>): seq<Song>
    requires Resolvable(songs, urls)
    decreases |songs|
  {
    if |songs| == 0 then []
    else
      var init := songs[..|songs| - 1];
      var last := songs[|songs| - 1];
      assert Resolvable(init, urls) by {
        forall i | 0 <= i < |init| ensures HasEntry(urls, init[i].id) {
          assert init[i] == songs[i];
        }
      }
      Joined(init, urls) + (if Kept(last, urls) then [Attach(last, urls)] else [])
  }

  /** The positions of the kept songs: strictly increasing, in range, and
      containing a position exactly when the song there has a truthy URL. */
  function KeptIndices(songs: seq<Song>, urls: seq<SongUrl>): (r: seq<nat>)
    requires Resolvable(songs, urls)
    ensures forall k :: 0 <= k < |r| ==> r[k] < |songs|
    ensures forall k, l :: 0 <= k < l < |r| ==> r[k] < r[l]
    ensures forall i :: 0 <= i < |songs| ==> (i in r <==> Kept(songs[i], urls))
    decreases |songs|
  {
    if |songs| == 0 then []
    else
      var n := |songs| - 1;
      var init := songs[..n];
      assert Resolvable(init, urls) by {
        forall i | 0 <= i < |init| ensures HasEntry(urls, init[i].id) {
          assert init[i] == songs[i];
        }
      }
      var r0 := KeptIndices(init, urls);
      assert forall i :: 0 <= i < n ==> init[i] == songs[i];
      r0 + (if Kept(songs[n], urls) then [n] else [])
  }

  /** The join selects exactly the songs at `KeptIndices`, in that order,
      each with its URL attached. */
  lemma {:induction false} JoinedIsKeptSubsequence(songs: seq<Song>, urls: seq<SongUrl>)
    requires Resolvable(songs, urls)
    ensures |Joined(songs, urls)| == |KeptIndices(songs, urls)|
    ensures forall k :: 0 <= k < |Joined(songs, urls)| ==>
              Joined(songs, urls)[k] == Attach(songs[KeptIndices(songs, urls)[k]], urls)
    decreases |songs|
  {
    if |songs| > 0 {
      var n := |songs| - 1;
      var init := songs[..n];
      assert Resolvable(init, urls) by {
        forall i | 0 <= i < |init| ensures HasEntry(urls, init[i].id) {
          assert init[i] == songs[i];
        }
      }
      JoinedIsKeptSubsequence(init, urls);
      var j0 := Joined(init, urls);
      var r0 := KeptIndices(init, urls);
      var j := Joined(songs, urls);
      var r := KeptIndices(songs, urls);
      assert j == j0 + (if Kept(songs[n], urls) then [Attach(songs[n], urls)] else []);
      assert r == r0 + (if Kept(songs[n], urls) then [n] else []);
      forall k | 0 <= k < |j|
        ensures j[k] == Attach(songs[r[k]], urls)
      {
        if k < |j0| {
          assert j[k] == j0[k] && r[k] == r0[k];
          assert init[r0[k]] == songs[r0[k]];
        }
      }
    }
  }

  /** `generateSongList(songs, urls)`: walks the songs in order and keeps
      each one whose URL is truthy, with that URL attached. */
  method GenerateSongList(songs: seq<Song>, urls: seq<SongUrl>) returns (result: seq<Song>)
    requires Resolvable(songs, urls)
    ensures result == Joined(songs, urls)
    ensures |result| <= |songs|
    ensures |result| == |KeptIndices(songs, urls)|
    ensures forall k :: 0 <= k < |result| ==>
              result[k] == Attach(songs[KeptIndices(songs, urls)[k]], urls) && Truthy(result[k].url)
  {
    result := [];
    var i := 0;
    while i < |songs|
      invariant 0 <= i <= |songs|
      invariant Resolvable(songs[..i], urls)
      invariant result == Joined(songs[..i], urls)
    {
      var song := songs[i];
      var url := FindUrl(urls, song.id).value.url;
      if Truthy(url) {
        result := result + [song.(url := url)];
      }
      assert songs[..i + 1][..i] == songs[..i];
      i := i + 1;
    }
    assert songs[..i] == songs;
    JoinedIsKeptSubsequence(songs, urls);
    KeptIndicesBound(songs, urls);
  }

  /** There are no more kept positions than songs. */
  lemma KeptIndicesBound(songs: seq<Song>, urls: seq<SongUrl>)
    requires Resolvable(songs, urls)
    ensures |KeptIndices(songs, urls)| <= |songs|
  {
    var r := KeptIndices(songs, urls);
    StrictlyIncreasingBound(r, |songs|);
  }

  /** A strictly increasing sequence below n has at most n elements. */
  lemma {:induction false} StrictlyIncreasingBound(r: seq<nat>, n: nat)
    requires forall k :: 0 <= k < |r| ==> r[k] < n
    requires forall k, l :: 0 <= k < l < |r| ==> r[k] < r[l]
    ensures |r| <= n
    decreases |r|
  {
    if |r| > 0 {
      var last := r[|r| - 1];
      StrictlyIncreasingBound(r[..|r| - 1], last);
    }
  }

  // ---------------------------------------------------------------------
  // getSongList

  /** The argument of `getSongList`: one song or an array of songs. */
  datatype SongArg = One(song: Song) | Many(songs: seq<Song>)

  /** `Array.isArray(songs) ? songs.slice() : [songs]`. */
  function SongArray(arg: SongArg): seq<Song> {
    match arg
    case One(song) => [song]
    case Many(songs) => songs
  }

  function Ids(songs: seq<Song>): seq<int> {
    seq(|songs|, i requires 0 <= i < |songs| => songs[i].id)
  }

  /** The `id` query `getSongList` sends: the ids of the songs in argument
      order, a single song counting as a list of one, each written as
      JavaScript writes an integer and joined with commas. It is built
      before any response arrives, so it needs nothing of one. */
  function SongListQuery(arg: SongArg): (q: string)
    ensures arg.One? ==> Decimal.ParseIdList(q) == Some([arg.song.id])
    ensures arg.Many? ==> Decimal.ParseIdList(q) == Some(Ids(arg.songs))
    ensures Decimal.CanonicalIdList(q)
  {
    var ids := Ids(SongArray(arg));
    Decimal.IdListRoundTrip(ids);
    assert arg.One? ==> ids == [arg.song.id];
    Decimal.IdList(ids)
  }

  /** What `getSongList` does around its request: the `id` query it sends
      and the songs it answers with once `urls` comes back. */
  datatype SongListCall = SongListCall(query: string, songs: seq<Song>)

  /** `getSongList(songs)` given the URL response: the query of
      `SongListQuery`, answered with the join of the songs with the
      response. */
  function GetSongList(arg: SongArg, urls: seq<SongUrl>): (r: SongListCall)
    requires Resolvable(SongArray(arg), urls)
    ensures r.query == SongListQuery(arg)
    ensures arg.One? ==> Decimal.ParseIdList(r.query) == Some([arg.song.id])
    ensures arg.Many? ==> Decimal.ParseIdList(r.query) == Some(Ids(arg.songs))
    ensures Decimal.CanonicalIdList(r.query)
    ensures |r.songs| <= |SongArray(arg)|
    ensures r.songs == Joined(SongArray(arg), urls)
  {
    var songArr := SongArray(arg);
    JoinedIsKeptSubsequence(songArr, urls);
    KeptIndicesBound(songArr, urls);
    SongListCall(SongListQuery(arg), Joined(songArr, urls))
  }

  // ---------------------------------------------------------------------
  // getLyric

  /** One field of the lyric response: `{lyric: string}`, the text possibly
      absent. */
  datatype LyricEntry = LyricEntry(lyric: Option<string>)

  /** The lyric response, a record of entries keyed by name. */
  type LyricResponse = map<string, LyricEntry>

  /** The reshaped lyric: original and translated text. */
  datatype Lyric = Lyric(lyric: Option<string>, tlyric: Option<string>)

  /** Reading `.lyric` of an absent field throws; the field is named. */
  datatype LyricError = MissingField(key: string)

  /** The reshape inside `getLyric`: `lrc` is read first, then `tlyric`. */
  function ReshapeLyric(res: LyricResponse): (r: Result<Lyric, LyricError>)
    ensures r.Success? <==> "lrc" in res && "tlyric" in res
    ensures r.Success? ==> r.value.lyric == res["lrc"].lyric && r.value.tlyric == res["tlyric"].lyric
    ensures "lrc" !in res ==> r == Failure(MissingField("lrc"))
    ensures "lrc" in res && "tlyric" !in res ==> r == Failure(MissingField("tlyric"))
  {
    if "lrc" !in res then Failure(MissingField("lrc"))
    else if "tlyric" !in res then Failure(MissingField("tlyric"))
    else Success(Lyric(res["lrc"].lyric, res["tlyric"].lyric))
  }

  /** The response that carries a given lyric. */
  function ResponseOf(l: Lyric): LyricResponse {
    map["lrc" := LyricEntry(l.lyric), "tlyric" := LyricEntry(l.tlyric)]
  }

  /** Reshaping the response that carries a lyric gives back that lyric. */
  lemma ReshapeRoundTrip(l: Lyric)
    ensures ReshapeLyric(ResponseOf(l)) == Success(l)
  {
  }

  /** Fields other than `lrc` and `tlyric` do not matter. */
  lemma ReshapeIgnoresOtherFields(res: LyricResponse, key: string, e: LyricEntry)
    requires key != "lrc" && key != "tlyric"
    ensures ReshapeLyric(res[key := e]) == ReshapeLyric(res)
  {
  }
}

=== FILE: wrappers.dfy ===
/** The optional and failing values shared by the model: `Option` stands for
    a JavaScript value that may be `undefined`, `Result` for an operation
    that can throw. */
module Wrappers {

  /** A value that may be absent. */
  datatype Option<+T> = None | Some(value: T)

  /** The outcome of an operation: a value, or the error it stopped with. */
  datatype Result<+R, +E> = Success(value: R) | Failure(error: E)
}
